=== FILE: README.md ===
# Wheel Roller: a functional model of the `WheelRoller` core

Wheel Roller is a browser "spin the wheel" picker. Its single class,
`WheelRoller` (main.js), keeps a list of option labels, draws them as equal
sectors of a wheel, spins the wheel by a random amount with a cubic ease-out
animation, reads the winner off the sector under the pointer, keeps a short
history of winners, and saves its state to an in-page variable.

This project models the state logic under the DOM, canvas and audio code as
immutable Dafny values and pure transition functions, and proves properties
of them:

- `optional.dfy` (`Optional`): missing JavaScript values after parsing.
- `text.dfy` (`Text`): `String.prototype.trim` over ECMAScript white space.
- `items.dfy` (`Items`): the option list: add, edit, remove (`splice`),
  clear, presets; the "labels are distinct, non-empty and trimmed" invariant.
- `angles.dfy` (`Angles`): angles as exact reals, `TwoPi` as the exact value
  of the double `2 * Math.PI`, and JavaScript's truncating `%` on numbers and
  integers.
- `animation.dfy` (`Animation`): spin amount, clamped progress, cubic
  ease-out, the sampled rotation of a frame, the resting angle.
- `locator.dfy` (`Locator`): the winner index computed by `showResult`.
- `history.dfy` (`History`): the ten-entry, newest-first winner history.
- `persistence.dfy` (`Persistence`): settings, the saved/exported document as
  a record of optional fields, the falsy-fallback defaults, the duration
  setting.
- `wheel.dfy` (`WheelRoller`): the whole object as a value, with one function
  per handler, an `Event` type and the invariants every event keeps.

The user's answers to `prompt`/`confirm`, the value of `Math.random()`, the
time elapsed since the spin began (`Date.now() - startTime`) and the
`toLocaleTimeString()` text are parameters. The animation is a sampling
function of elapsed time. `spinWheel` makes the first `animate` call
itself, before returning, so a spin request (`SpinWheel`) is the set-up
followed by that frame, taken at whatever time has elapsed by then
(normally 0 ms); each later `animate` call is one `Frame`.

The winner is whatever sector ends up under the pointer after a random spin
of `(r * 10 + 5)` turns. The resting angle is reduced by a single truncating
`%`. Empty and duplicate labels are rejected by `addItem`/`editItem`
themselves, but a loaded document is not checked. The exported file holds no
history.

Observations the model makes explicit:

- The winner is read from the items as they are when the spin ends, and the
  list stays editable during a spin. If it was emptied, `items[NaN]` is
  `undefined`; the history entry then holds `None`.
- The locator reads the sector that covers canvas angle 0 (or 2π) in the
  drawing of `drawWheel`. Where the pointer is drawn is set by the page
  markup, and that markup is not part of this model.
- `updateSpinDuration` and `loadWheel` do not call `saveToStorage`, so the
  stored document keeps the old values until the next save.
- A wheel size or spin duration of 0 is saved as 0 and read back as its
  default (400 or 4000). So save-then-load restores the state exactly when
  neither is 0.
- A spin duration of 0 ends a spin inside `spinWheel` itself, on the
  synchronous first frame (the progress is NaN or infinite, and
  `progress < 1` is false): the request returns with the winner recorded
  and the state saved.
- A negative duration, which a loaded document can carry, makes the
  progress at most 0, so the wheel is drawn behind its start and the spin
  does not end while the duration stays negative (see Findings). Because
  `animate` reads the duration afresh at every frame, moving the duration
  slider or loading a file with a positive duration ends it on the first
  frame after that duration.
- A new wheel takes its dark-mode flag from the stored document when that
  has one, and otherwise from the system preference.

## Model

| member | source | states |
|---|---|---|
| Text.TrimStart | main.js:98 | the result is the suffix of the input that starts at its first non-white character; everything dropped is white space |
| Text.TrimEnd | main.js:98 | the result is the prefix of the input that ends at its last non-white character; everything dropped is white space |
| Text.Trim | main.js:98 | `trim()` yields a slice of the input with no white space at either end, and only white space lies outside it |
| Text.TrimEmptyIff | main.js:100 | the trimmed text is empty (falsy) exactly when the input is all white space |
| Text.TrimIdempotent | main.js:118 | trimming an already trimmed label changes nothing |
| Text.TrimStripsPadding | main.js:98 | any white space around a trimmed label is removed, and exactly that label is left |
| Items.AddItem | main.js:98-101 | the trimmed text is appended at the end exactly when it is non-empty and not yet listed; otherwise the list is unchanged; membership after is membership before plus that text |
| Items.AddItemKeepsValid | main.js:98-101 | adding keeps the labels distinct, non-empty and trimmed |
| Items.AddItemIdempotent | main.js:100-101 | adding the same text twice adds it once |
| Items.EditItem | main.js:116-119 | only slot `index` can change, only to the trimmed answer, and only when the answer was given, trims to something non-empty and is not yet listed; the length never changes |
| Items.EditItemKeepsValid | main.js:118-119 | editing keeps the labels distinct, non-empty and trimmed |
| Items.EditToSameLabelIsNoOp | main.js:118 | re-entering the label a slot already shows leaves the list unchanged |
| Items.EditItemUndo | main.js:118-119 | an accepted edit is undone by editing the slot back to its old label |
| Items.SpliceStart | main.js:110 | `splice` starts at the index when it is in range, counts a negative index from the end (clamped at 0), and clamps a large index to the length |
| Items.RemoveItem | main.js:109-110 | removal deletes the one slot `splice` starts at, if any, shifting later items down; an index past the end changes nothing |
| Items.RemoveItemInRange | main.js:110 | for an index in range the result is the items before it followed by those after it, and exactly one copy of the removed label leaves the multiset |
| Items.RemoveItemKeepsValid | main.js:110 | removing keeps the labels distinct, non-empty and trimmed |
| Items.RemoveUndoesAdd | main.js:100-110 | removing the last slot undoes an accepted add |
| Items.ClearAll | main.js:126-128 | a confirmed clear empties the list; a refused one changes nothing |
| Items.ClearAllKeepsValid | main.js:128 | clearing keeps the list invariant |
| Items.LoadPreset | main.js:336-344 | each preset has its fixed length: 2, 10, 6 and 6 labels |
| Items.PresetsAreValid | main.js:337-341 | every preset list has distinct, non-empty, trimmed labels |
| Angles.Trunc | main.js:251 | truncation toward zero: the result is within one of its argument, on the zero side |
| Angles.RealRem | main.js:251 | JavaScript `x % m` for positive `m`: in `[0, m)` for a non-negative `x`, in `(-m, 0]` for a non-positive one |
| Angles.TruncScaled | main.js:251 | the whole multiples of `m` that `x % m` removes lie within one `m` of `x` |
| Angles.RealRemWholeTurns | main.js:251 | `x % m` differs from `x` by a whole number of `m`s |
| Angles.RealRemOfReduced | main.js:264 | an angle already in `[0, m)` is unchanged by `% m` |
| Angles.RealRemPeriodic | main.js:251 | adding whole turns to a non-negative angle does not change its remainder |
| Angles.RealRemIdempotent | main.js:251 | reducing an angle twice is reducing it once |
| Angles.IntRem | main.js:265 | JavaScript `i % n` on integers: in `[0, n)` for a non-negative `i`, in `(-n, 0]` for a negative one |
| Angles.IntRemOfInRange | main.js:265 | the trailing `% n` leaves an index already in `[0, n)` unchanged |
| Animation.SpinAmount | main.js:235 | for a draw in `[0, 1)` the spin is between five and fifteen turns, that is in `[10π, 30π)` |
| Animation.Progress | main.js:240 | for a positive duration progress lies in `[0, 1]`, is 1 exactly once the duration has passed, and before that is the elapsed fraction; for a negative duration it is never positive, and negative once time has passed |
| Animation.ProgressMonotone | main.js:240 | for a positive duration progress never decreases as time passes |
| Animation.Ease | main.js:243 | on `[0, 1]` the eased value is in `[0, 1]` and never behind linear progress; it never exceeds 1 for progress up to 1, and falls below a negative progress |
| Animation.EaseEndpoints | main.js:243 | the curve is 0 at progress 0 and 1 at progress 1 |
| Animation.EaseMonotone | main.js:243 | the curve is non-decreasing on `[0, 1]` |
| Animation.Sample | main.js:245 | once a positive duration has passed, the frame is exactly start plus spin amount |
| Animation.SampleBounds | main.js:245 | for a positive duration every frame lies between the start rotation and the target, and once the duration has passed the frame is exactly start plus spin amount |
| Animation.SampleAtStart | main.js:240-245 | the frame at elapsed time 0 draws the wheel at its start rotation, whatever the nonzero duration |
| Animation.SampleBelowTarget | main.js:240-245 | for any nonzero duration a forward spin is never drawn past its target |
| Animation.SampleBehindStart | main.js:240-245 | with a negative duration every frame after time 0 is drawn behind the start rotation |
| Animation.SampleMonotone | main.js:239-245 | for a positive duration a later frame never shows the wheel turned back |
| Animation.RestingAngle | main.js:251 | the resting angle of a forward spin from a non-negative rotation lies in `[0, 2π)` |
| Animation.RestingAngleInvariant | main.js:234-251 | a spin starting in `[0, 2π)` ends in `[0, 2π)`, at the last frame's rotation reduced by whole turns |
| Locator.SectorWidth | main.js:263 | `n` sectors of this width fill exactly one turn |
| Locator.PointerOffset | main.js:264 | the pointer's offset from the start of sector 0 lies in `[0, 2π)` |
| Locator.Locate | main.js:263-265 | for a rotation in `[0, 2π]` the index is in `[0, n)` and its sector spans the pointer offset |
| Locator.LocateUnique | main.js:263-265 | any sector spanning the pointer offset is the located one, so the winner is unambiguous |
| Locator.LocateMatchesDrawing | main.js:170-173 | the located sector is the one `drawWheel` draws over canvas angle 0 (or 2π) at that rotation |
| Locator.Winner | main.js:262-266 | with at least one item and a rotation in `[0, 2π]` the winner is the item at the located index; with no items it is `undefined` |
| History.AddToHistory | main.js:276-278 | the new entry comes first, the older entries follow in order, and only the oldest is dropped when the list was already full; a list of at most ten stays at most ten |
| History.AddAllKeepsMostRecent | main.js:277-278 | after any run of results the history is the newest ten entries, newest first |
| Persistence.NumberOr | main.js:432-433 | a missing or zero number falls back to its default; any other number is kept |
| Persistence.ApplySettings | main.js:431-436 | absent settings leave the current ones; otherwise size and duration fall back to 400 and 4000 when missing or 0, sound is on unless explicitly false, dark mode is on only if true |
| Persistence.SaveDocument | main.js:412-421 | the saved document holds the items, the history and all four settings, and is the exported document plus the history |
| Persistence.LoadDocument | main.js:429-436 | missing items or history read as empty lists, present ones are taken as they are, the settings are applied field by field, and loading agrees with importing except that it reads the history |
| Persistence.LoadDefaults | main.js:426-436 | an empty document empties items and history and keeps the settings; an empty settings object restores the default settings |
| Persistence.SaveLoadRoundTrip | main.js:411-436 | loading a saved document restores items, history and settings exactly when neither the size nor the duration is 0 |
| Persistence.ExportDocument | main.js:350-359 | the exported configuration carries no history |
| Persistence.ImportDocument | main.js:380-387 | importing a file never touches the history; missing items read as an empty list, present ones are taken as they are, and the settings are applied field by field |
| Persistence.ImportDefaults | main.js:381-386 | a file with no items empties the list, one with no settings keeps the current settings, one with an empty settings object restores the defaults, and the history is kept |
| Persistence.ExportImportRoundTrip | main.js:350-386 | importing an exported file restores items and settings, keeping the current history, exactly when neither the size nor the duration is 0 |
| Persistence.UpdateSpinDuration | main.js:326-327 | the stored duration reads back on the slider as the seconds entered; no other setting changes |
| Persistence.DisplayedSeconds | main.js:404 | the slider shows the duration in seconds: times 1000 it is the stored milliseconds, and a whole number of seconds shows as that number |
| WheelRoller.Save | main.js:411-424 | saving records the document of the current items, history and settings, whose items read back as the current items, and changes nothing else |
| WheelRoller.LoadFromStorage | main.js:426-436 | with nothing stored the wheel is unchanged; otherwise items, history and settings become what the stored document loads to; loading never touches rotation, spin state or the stored document |
| WheelRoller.Init | main.js:2-41 | a new wheel is at rest at a valid rotation holding what the stored document loads to (empty with the default settings when nothing is stored), with the stored dark-mode flag if there is one and the system preference otherwise |
| WheelRoller.SystemThemeChanged | main.js:34-39 | a change of the system theme sets dark mode only while the stored document has no dark-mode flag, and changes nothing else |
| WheelRoller.ToggleDarkMode | main.js:43-47 | the dark-mode flag flips and the state is saved |
| WheelRoller.ToggleDarkModeTwice | main.js:43-47 | toggling twice is the same as saving the wheel as it was |
| WheelRoller.SavedThemeIgnoresSystem | main.js:34-47 | once a save has written the dark-mode flag, system theme changes no longer affect the wheel |
| WheelRoller.ToggleSound | main.js:331-334 | the sound flag becomes the checkbox state and the state is saved |
| WheelRoller.SetWheelSize | main.js:312-313 | the size setting becomes the slider value, nothing else changes and nothing is saved |
| WheelRoller.SettingsSurviveReload | main.js:312-334 | a slider size and a sound checkbox state are read back from the next save, a size of 0 as 400 |
| WheelRoller.AddItem | main.js:96-107 | the list changes as `addItem` does, and the state is saved exactly when the text was accepted |
| WheelRoller.RemoveItem | main.js:109-114 | the list changes as `splice` does, and the state is always saved |
| WheelRoller.EditItem | main.js:116-124 | the list changes as `editItem` does; the state is saved exactly when the answer was accepted, and a rejected or cancelled edit changes nothing |
| WheelRoller.ClearAll | main.js:126-133 | a confirmed clear empties the list and saves, changing nothing else; a refused one changes nothing |
| WheelRoller.LoadPreset | main.js:336-348 | the list becomes the preset and the state is saved |
| WheelRoller.SetSpinDuration | main.js:326-329 | the duration shows back as the seconds entered, and nothing but the duration setting changes |
| WheelRoller.ImportFile | main.js:370-398 | an unparseable file changes nothing; a parsed one sets items and settings as the imported document says and never touches history, rotation, spin state or the stored document |
| WheelRoller.RequestSpin | main.js:226-236 | a request while spinning or with fewer than two items changes nothing; an accepted one sets the busy flag and starts five to fifteen turns from the current rotation, changing nothing else |
| WheelRoller.SpinWheel | main.js:226-259 | a refused request changes nothing; an accepted one is the set-up followed by the synchronous first frame: still spinning with the new start and amount while the duration is negative or not yet reached (at its start if no time has passed), already finished when the duration is 0 or has passed |
| WheelRoller.ZeroDurationSpinEndsAtOnce | main.js:238-259 | with a duration of 0 a spin request returns at rest within one turn, whatever time the first frame sees, with the item under the pointer at the head of the history and the state saved |
| WheelRoller.Finish | main.js:250-255 | the wheel comes to rest at the reduced angle, the winner under the pointer heads the history, the state is saved and the busy flag is cleared |
| WheelRoller.Frame | main.js:238-257 | with a duration of 0 the first frame finishes the spin; with a negative duration, or before a positive duration has passed, a frame only moves the wheel to the sampled rotation; at or after a positive duration the spin finishes |
| WheelRoller.StepKeepsRotationInv | main.js:226-257 | every event keeps the rotation within one turn at rest, and during a spin keeps the start within one turn and the wheel short of its target |
| WheelRoller.StepSpinningChanges | main.js:227-254 | only an accepted spin request sets the busy flag, and only a frame at or past a non-negative duration clears it |
| WheelRoller.StepKeepsValidItems | main.js:96-133 | every editing event keeps the labels distinct, non-empty and trimmed |
| WheelRoller.SpinLifecycle | main.js:226-278 | a spin from rest is still spinning after a first frame taken before the duration (at its start if no time has passed), and ends at rest within one turn, with the item whose sector spans the pointer at the head of the history |
| WheelRoller.SavedStateReloads | main.js:411-436 | whatever the wheel holds now, loading a document saved from another state restores that state's items, history and settings, when neither numeric setting is 0 |
| WheelRoller.NegativeDurationSpinStalls | main.js:384-386 | after importing a file with spin duration -1000 into a new wheel and spinning, every later frame taken while the duration is unchanged leaves the wheel spinning and drawn behind its start |
| WheelRoller.NegativeDurationSpinRecovers | main.js:238-254 | once the duration slider is set to a positive number of seconds, the stalled spin ends at rest within one turn on the first frame after that many seconds |
| WheelRoller.EffectiveDuration | main.js:240 | the duration a frame uses is always positive, and is the setting whenever that is positive |
| WheelRoller.FrameChecked | main.js:238-257 | with the duration checked, a frame at or past the effective duration finishes the spin, and an earlier one samples at that duration |
| WheelRoller.CheckedSpinEnds | main.js:238-257 | with the duration checked, a spin is drawn between start and target until the effective duration, and then rests within one turn |

## Left out

- Canvas drawing (`drawWheel`), DOM updates, event wiring, `updateUI`, `setupResponsiveCanvas` and the canvas-sizing part of `updateWheelSize`: presentation only. The drawing's sector layout is used to state `LocateMatchesDrawing`. The size setting itself is modelled by `SetWheelSize`.
- `matchMedia` and `updateDarkModeUI`: the system preference is a parameter of `Init` and `SystemThemeChanged`; the page styling is presentation.
- The Web Audio beep (`playSound`), the Blob download in `saveWheel`, and the `FileReader` and `JSON.parse` in `loadWheel`: foreign APIs. A file is modelled as an already-typed document, and a parse failure as `None`.
- Documents whose fields have the wrong JSON types (say `items` as a string, where `updateUI` would throw after `items` was already assigned): the document record is typed.
- `parseInt` of the slider text: `SetSpinDuration` and `SetWheelSize` take the parsed integer.
- `Math.random`, `Date.now`, `toLocaleTimeString`, `requestAnimationFrame`: values passed in; frame scheduling is left to the caller of `Frame`.
- IEEE-754 rounding, NaN and infinities: angles and times are exact reals. The one place NaN and infinity decide a branch, a spin duration of 0, is modelled by its outcome (the spin finishes).
- WheelRoller.Frame: requires a non-negative elapsed time; a clock going backwards is not modelled.
- Animation.Progress: requires a nonzero duration; `Frame` handles a duration of 0 before computing progress.
- Animation.SampleBounds: the lower bound (never behind the start) is stated only for a positive duration, because it fails for a negative one.
- WheelRoller.StepKeepsRotationInv: during a spin the invariant bounds the rotation only from above, because a negative duration draws the wheel behind its start.
- Locator.Locate: the range and sector property is stated only for rotations in `[0, 2π]`, the only ones `showResult` sees. Other rotations are computed as written, but nothing is claimed about them.
- Animation.RestingAngle: the range is stated only when start plus spin amount is non-negative, which every reachable spin satisfies.
- `loadPreset` with a name other than the four presets throws (`[...undefined]`); the model's preset argument is a datatype with exactly those four values.
- Items.EditItem: requires `index` to name a slot. The handler is only ever bound to rendered slots, and an out-of-range write would create a sparse array.

## Findings

| source | as written | input that shows it | evidently intended | confidence | as-written member | corrected member |
|---|---|---|---|---|---|---|
| main.js:240-248 | a loaded `spinDuration` (main.js:384, main.js:433) is kept whenever it is truthy, so a negative value reaches `elapsed / this.spinDuration`; the progress then stays at or below 0, every frame is drawn behind its start and schedules another, so `isSpinning` stays set and the Spin button disabled until the duration is changed to a positive value (by the slider or another file) | a file `{"items":["A","B"],"settings":{"spinDuration":-1000}}` loaded, then one spin | a spin ends once a positive duration has passed, with a non-positive duration treated like a missing one | not executed; high that the spin cannot end while the duration stays negative, since progress is then at most 0 for every elapsed time | WheelRoller.NegativeDurationSpinStalls | WheelRoller.CheckedSpinEnds |


=== FILE: angles.dfy ===
/** Angles as exact reals, and the two flavours of JavaScript `%` the wheel
    uses. JavaScript's remainder truncates toward zero, so its result takes
    the sign of the dividend; Dafny's `%` on `int` is Euclidean, so both are
    written out here. */
module Angles {

  /** The exact value of the double `2 * Math.PI`. Nothing below depends on
      more than `TwoPi > 0`; the arithmetic on it is exact, not IEEE-754. */
  const TwoPi: real := 6.28318530717958623199592693708837032318115234375

  /** `Math.trunc`: rounds toward zero. */
  function Trunc(x: real): (k: int)
    ensures 0.0 <= x ==> 0 <= k && k as real <= x < k as real + 1.0
    ensures x < 0.0 ==> k <= 0 && k as real - 1.0 < x <= k as real
  {
    if x >= 0.0 then x.Floor else -((-x).Floor)
  }

  /** `x % m` on numbers, for a positive divisor: `x` minus the whole
      multiples of `m` that `x / m` truncates to. */
  function RealRem(x: real, m: real): (r: real)
    requires m > 0.0
    ensures 0.0 <= x ==> 0.0 <= r < m
    ensures x <= 0.0 ==> -m < r <= 0.0
  {
    var q := Trunc(x / m);
    TruncScaled(x, m);
    x - q as real * m
  }

  /** `x % m` differs from `x` by a whole number of `m`s. */
  lemma RealRemWholeTurns(x: real, m: real)
    requires m > 0.0
    ensures var r := RealRem(x, m); ((x - r) / m).Floor as real * m == x - r
  {
    var q := Trunc(x / m);
    assert x - RealRem(x, m) == q as real * m;
    WholeMultiple(q, m);
  }

  /** A whole multiple of `m`, divided by `m`, is that whole number. */
  lemma WholeMultiple(q: int, m: real)
    requires m > 0.0
    ensures ((q as real * m) / m).Floor == q
  {
    assert (q as real * m) / m == q as real;
  }

  /** Multiplying the truncation bounds of `x / m` through by `m`. */
  lemma TruncScaled(x: real, m: real)
    requires m > 0.0
    ensures var q := Trunc(x / m) as real;
      && (0.0 <= x ==> q * m <= x < q * m + m)
      && (x < 0.0 ==> q * m - m < x <= q * m)
  {
    if 0.0 <= x {
      TruncScaledNonNeg(x, m);
    } else {
      TruncScaledNeg(x, m);
    }
  }

  lemma TruncScaledNonNeg(x: real, m: real)
    requires m > 0.0 && 0.0 <= x
    ensures var q := Trunc(x / m) as real; q * m <= x < q * m + m
  {
    var y := x / m;
    var q := Trunc(y) as real;
    DivMul(x, m);
    MulMonotone(q, y, m);
    MulStrict(y, q + 1.0, m);
    AddOneTimes(q, m);
    assert y * m == x;
    assert y * m < (q + 1.0) * m;
    assert (q + 1.0) * m == q * m + m;
    assert x < q * m + m;
  }

  lemma TruncScaledNeg(x: real, m: real)
    requires m > 0.0 && x < 0.0
    ensures var q := Trunc(x / m) as real; q * m - m < x <= q * m
  {
    var y := x / m;
    var q := Trunc(y) as real;
    DivMul(x, m);
    MulStrict(x, 0.0, 1.0 / m);
    assert y < 0.0;
    MulMonotone(y, q, m);
    MulStrict(q - 1.0, y, m);
    AddOneTimes(q - 1.0, m);
    assert y * m == x;
    assert (q - 1.0) * m < y * m <= q * m;
    assert q * m - m < x;
  }

  lemma DivMul(x: real, m: real)
    requires m > 0.0
    ensures (x / m) * m == x
  {
  }

  lemma AddOneTimes(q: real, m: real)
    ensures (q + 1.0) * m == q * m + m
  {
  }

  lemma MulMonotone(a: real, b: real, m: real)
    requires a <= b && m > 0.0
    ensures a * m <= b * m
  {
  }

  lemma MulStrict(a: real, b: real, m: real)
    requires a < b && m > 0.0
    ensures a * m < b * m
  {
  }

  lemma MulCancelStrict(a: real, b: real, m: real)
    requires a * m < b * m && m > 0.0
    ensures a < b
  {
    MulStrict(a * m, b * m, 1.0 / m);
    assert a * m * (1.0 / m) == a;
    assert b * m * (1.0 / m) == b;
  }

  /** Reducing an angle that is already in `[0, m)` leaves it alone. */
  lemma RealRemOfReduced(x: real, m: real)
    requires m > 0.0
    requires 0.0 <= x < m
    ensures RealRem(x, m) == x
  {
    var y := x / m;
    assert y * m == x < m == 1.0 * m;
    MulCancelStrict(y, 1.0, m);
    assert 0.0 <= y < 1.0;
  }

  /** Adding whole turns to a non-negative angle does not change its
      remainder. */
  lemma RealRemPeriodic(x: real, k: nat, m: real)
    requires m > 0.0
    requires 0.0 <= x
    ensures RealRem(x + k as real * m, m) == RealRem(x, m)
  {
    var y := x + k as real * m;
    assert y / m == x / m + k as real;
    assert (x / m + k as real).Floor == (x / m).Floor + k;
  }

  /** Reducing twice is reducing once. */
  lemma RealRemIdempotent(x: real, m: real)
    requires m > 0.0
    requires 0.0 <= x
    ensures RealRem(RealRem(x, m), m) == RealRem(x, m)
  {
    RealRemOfReduced(RealRem(x, m), m);
  }

  /** `i % n` on integers, for a positive divisor: truncated, so a negative
      dividend gives a remainder in `(-n, 0]`. */
  function IntRem(i: int, n: int): (r: int)
    requires n > 0
    ensures 0 <= i ==> 0 <= r < n
    ensures i < 0 ==> -n < r <= 0
  {
    if i >= 0 then i % n else -((-i) % n)
  }

  /** An index already in `[0, n)` is unchanged by `% n`. */
  lemma IntRemOfInRange(i: int, n: int)
    requires 0 <= i < n
    ensures IntRem(i, n) == i
  {
    assert i / n == 0;
  }
}

=== FILE: animation.dfy ===
/** The arithmetic of one spin: how far the wheel turns, how far through
    the animation a given elapsed time is, the cubic ease-out curve, the
    rotation drawn at that time, and the angle the wheel comes to rest at.
    Times are milliseconds and angles radians, both exact reals. */
module Animation {
  import opened Angles

  /** `(Math.random() * 10 + 5) * 2 * Math.PI` for a draw `r` in `[0, 1)`:
      between five and fifteen full turns. */
  function SpinAmount(r: real): (a: real)
    requires 0.0 <= r < 1.0
    ensures 5.0 * TwoPi <= a < 15.0 * TwoPi
  {
    (r * 10.0 + 5.0) * TwoPi
  }

  /** `Math.min(elapsed / duration, 1)`: the fraction of the animation that
      has played, saturating at 1. A duration of 0 is handled by `Frame`;
      a negative one (which a loaded document can carry) gives a progress
      that is never positive, so it never reaches 1. */
  function Progress(elapsed: real, duration: real): (p: real)
    requires elapsed >= 0.0 && duration != 0.0
    ensures duration > 0.0 ==> 0.0 <= p <= 1.0 && (p == 1.0 <==> elapsed >= duration)
    ensures duration < 0.0 ==> p <= 0.0 && (elapsed > 0.0 ==> p < 0.0)
    ensures p < 1.0 ==> p * duration == elapsed
  {
    var f := elapsed / duration;
    assert f * duration == elapsed;
    QuotientSign(elapsed, duration);
    if f < 1.0 then f else 1.0
  }

  /** The sign of a quotient of a non-negative numerator. */
  lemma QuotientSign(elapsed: real, duration: real)
    requires elapsed >= 0.0 && duration != 0.0
    ensures duration > 0.0 ==> elapsed / duration >= 0.0
    ensures duration < 0.0 ==> elapsed / duration <= 0.0 && (elapsed > 0.0 ==> elapsed / duration < 0.0)
  {
    if duration < 0.0 {
      var q := elapsed / -duration;
      assert q * -duration == elapsed;
      assert elapsed / duration == -q;
    }
  }

  function Cube(x: real): real {
    x * x * x
  }

  /** `1 - Math.pow(1 - p, 3)`: the cubic ease-out curve. On `[0, 1]` it
      stays in `[0, 1]` ahead of linear progress; below 0 it falls below its
      argument. */
  function Ease(p: real): (e: real)
    ensures 0.0 <= p <= 1.0 ==> 0.0 <= e <= 1.0 && p <= e
    ensures p <= 1.0 ==> e <= 1.0
    ensures p < 0.0 ==> e < p
  {
    var x := 1.0 - p;
    CubeFacts(x);
    1.0 - Cube(x)
  }

  /** `x^3` is non-negative for non-negative `x`, at most `x` on `[0, 1]`,
      and above `x` beyond 1. */
  lemma CubeFacts(x: real)
    ensures 0.0 <= x ==> 0.0 <= Cube(x)
    ensures 0.0 <= x <= 1.0 ==> Cube(x) <= x
    ensures 1.0 < x ==> x < Cube(x)
  {
    if 0.0 <= x <= 1.0 {
      CubeBelow(x);
    } else if 1.0 < x {
      CubeAbove(x);
    }
  }

  lemma CubeBelow(x: real)
    requires 0.0 <= x <= 1.0
    ensures 0.0 <= Cube(x) <= x
  {
    assert 0.0 <= x * x <= x by {
      MulLe(x, 1.0, x);
    }
    MulLe(x * x, x, x);
    MulLe(x, 1.0, x);
  }

  lemma CubeAbove(x: real)
    requires 1.0 < x
    ensures x < Cube(x)
  {
    assert x < x * x by {
      MulStrict(1.0, x, x);
    }
    MulStrict(x, x * x, x);
  }

  /** Multiplying both sides of `a <= b` by a non-negative `c`. */
  lemma MulLe(a: real, b: real, c: real)
    requires a <= b && 0.0 <= c
    ensures a * c <= b * c
  {
  }

  /** The curve starts at rest and ends exactly at the target. */
  lemma EaseEndpoints()
    ensures Ease(0.0) == 0.0
    ensures Ease(1.0) == 1.0
  {
  }

  /** The curve never goes backwards. */
  lemma EaseMonotone(p: real, q: real)
    requires 0.0 <= p <= q <= 1.0
    ensures Ease(p) <= Ease(q)
  {
    CubeMonotone(1.0 - q, 1.0 - p);
  }

  lemma CubeMonotone(a: real, b: real)
    requires 0.0 <= a <= b
    ensures Cube(a) <= Cube(b)
  {
    MulLe(a, b, a);
    MulLe(a, b, b);
    assert a * a <= b * b;
    MulLe(a * a, b * b, a);
    MulLe(a, b, b * b);
  }

  /** `startRotation + spinAmount * easeOut`: the rotation drawn when
      `elapsed` milliseconds of a `duration`-millisecond spin have passed. */
  function Sample(start: real, amount: real, elapsed: real, duration: real): (rot: real)
    requires elapsed >= 0.0 && duration != 0.0
    ensures duration > 0.0 && elapsed >= duration ==> rot == start + amount
  {
    start + amount * Ease(Progress(elapsed, duration))
  }

  /** For a forward spin every frame lies between the start and the target,
      and once the duration has passed the frame is exactly the target. */
  lemma SampleBounds(start: real, amount: real, elapsed: real, duration: real)
    requires elapsed >= 0.0 && duration > 0.0 && amount >= 0.0
    ensures start <= Sample(start, amount, elapsed, duration) <= start + amount
    ensures elapsed >= duration ==> Sample(start, amount, elapsed, duration) == start + amount
  {
    var e := Ease(Progress(elapsed, duration));
    ScaleForward(start, amount, 0.0, e);
    ScaleForward(start, amount, e, 1.0);
  }

  /** The first frame, at `elapsed` 0, draws the wheel at its start. */
  lemma SampleAtStart(start: real, amount: real, duration: real)
    requires duration != 0.0
    ensures Sample(start, amount, 0.0, duration) == start
  {
    assert Progress(0.0, duration) == 0.0;
  }

  /** Whatever the duration, a frame never passes the target. */
  lemma SampleBelowTarget(start: real, amount: real, elapsed: real, duration: real)
    requires elapsed >= 0.0 && duration != 0.0 && amount >= 0.0
    ensures Sample(start, amount, elapsed, duration) <= start + amount
  {
    ScaleForward(start, amount, Ease(Progress(elapsed, duration)), 1.0);
  }

  /** With a negative duration every frame after the first is drawn behind
      the start rotation: the wheel turns backwards. */
  lemma SampleBehindStart(start: real, amount: real, elapsed: real, duration: real)
    requires elapsed > 0.0 && duration < 0.0 && amount > 0.0
    ensures Sample(start, amount, elapsed, duration) < start
  {
    var e := Ease(Progress(elapsed, duration));
    assert e < 0.0;
    MulStrict(e, 0.0, amount);
    assert amount * e == e * amount;
  }

  /** For a positive duration, between two frames the wheel only ever turns
      forward. */
  lemma SampleMonotone(start: real, amount: real, t1: real, t2: real, duration: real)
    requires 0.0 <= t1 <= t2 && duration > 0.0 && amount >= 0.0
    ensures Sample(start, amount, t1, duration) <= Sample(start, amount, t2, duration)
  {
    var e1 := Ease(Progress(t1, duration));
    var e2 := Ease(Progress(t2, duration));
    EasedProgressMonotone(t1, t2, duration);
    ScaleForward(start, amount, e1, e2);
  }

  lemma EasedProgressMonotone(t1: real, t2: real, duration: real)
    requires 0.0 <= t1 <= t2 && duration > 0.0
    ensures Ease(Progress(t1, duration)) <= Ease(Progress(t2, duration))
  {
    ProgressMonotone(t1, t2, duration);
    EaseMonotone(Progress(t1, duration), Progress(t2, duration));
  }

  lemma ScaleForward(start: real, amount: real, e1: real, e2: real)
    requires e1 <= e2 && amount >= 0.0
    ensures start + amount * e1 <= start + amount * e2
  {
    MulLe(e1, e2, amount);
    assert amount * e1 == e1 * amount;
    assert amount * e2 == e2 * amount;
  }

  /** Progress never decreases as time passes. */
  lemma ProgressMonotone(t1: real, t2: real, duration: real)
    requires 0.0 <= t1 <= t2 && duration > 0.0
    ensures Progress(t1, duration) <= Progress(t2, duration)
  {
    var p1 := Progress(t1, duration);
    var p2 := Progress(t2, duration);
    if p2 < 1.0 {
      assert p1 < 1.0;
      ScaledLe(p1, p2, t1, t2, duration);
    }
  }

  /** Two fractions of the same positive whole are ordered like the parts
      they measure. */
  lemma ScaledLe(a: real, b: real, x: real, y: real, d: real)
    requires a * d == x && b * d == y && x <= y && d > 0.0
    ensures a <= b
  {
    MulLe(x, y, 1.0 / d);
    assert x * (1.0 / d) == a;
    assert y * (1.0 / d) == b;
  }

  /** `targetRotation % (2 * Math.PI)`: where the wheel is left once the
      animation ends, reduced to one turn. */
  function RestingAngle(start: real, amount: real): (rot: real)
    ensures start + amount >= 0.0 ==> 0.0 <= rot < TwoPi
  {
    RealRem(start + amount, TwoPi)
  }

  /** A resting angle in `[0, 2π)` stays in `[0, 2π)` across any spin, and
      it is the last frame drawn with the whole turns taken off. */
  lemma RestingAngleInvariant(start: real, r: real, elapsed: real, duration: real)
    requires 0.0 <= start < TwoPi
    requires 0.0 <= r < 1.0
    requires 0.0 < duration <= elapsed
    ensures 0.0 <= RestingAngle(start, SpinAmount(r)) < TwoPi
    ensures RestingAngle(start, SpinAmount(r)) == RealRem(Sample(start, SpinAmount(r), elapsed, duration), TwoPi)
  {
    SampleBounds(start, SpinAmount(r), elapsed, duration);
  }
}

=== FILE: history.dfy ===
/** The list of past winners, most recent first, trimmed to ten entries. */
module History {
  import opened Optional

  /** One past result. `item` is None when the winner was `undefined` (the
      list was emptied while the wheel was turning); `time` is the
      locale-formatted time of day, supplied by the caller. */
  datatype HistoryEntry = HistoryEntry(item: Option<string>, time: string)

  const MaxHistory: nat := 10

  /** `addToHistory`: `unshift` the new entry, then `pop` one entry if the
      list has grown past ten. A list that was already longer than ten
      (only a loaded document can make one) keeps its length. */
  function AddToHistory(history: seq<HistoryEntry>, e: HistoryEntry): (r: seq<HistoryEntry>)
    ensures |r| >= 1 && r[0] == e
    ensures |r| == if |history| >= MaxHistory then |history| else |history| + 1
    ensures r[1..] == history[..|r| - 1]
    ensures |history| <= MaxHistory ==> |r| <= MaxHistory
  {
    var h := [e] + history;
    assert h[1..] == history;
    if |h| > MaxHistory then h[..|h| - 1] else h
  }

  function Reverse<T>(s: seq<T>): (r: seq<T>)
    ensures |r| == |s|
    ensures forall i :: 0 <= i < |s| ==> r[i] == s[|s| - 1 - i]
  {
    if s == [] then [] else Reverse(s[1..]) + [s[0]]
  }

  /** Recording several results one after the other, oldest first. */
  function AddAll(history: seq<HistoryEntry>, es: seq<HistoryEntry>): seq<HistoryEntry>
    decreases |es|
  {
    if es == [] then history else AddAll(AddToHistory(history, es[0]), es[1..])
  }

  function Min(a: int, b: int): int {
    if a <= b then a else b
  }

  /** Starting from at most ten entries, the history after any run of
      results is the ten most recent of them (newest first), followed by as
      many of the older entries as still fit. */
  lemma {:induction false} AddAllKeepsMostRecent(history: seq<HistoryEntry>, es: seq<HistoryEntry>)
    requires |history| <= MaxHistory
    ensures var all := Reverse(es) + history;
      AddAll(history, es) == all[..Min(|all|, MaxHistory)]
    decreases |es|
  {
    if es != [] {
      var e := es[0];
      var h1 := AddToHistory(history, e);
      AddAllKeepsMostRecent(h1, es[1..]);
      var rest := Reverse(es[1..]);
      var x := [e] + history;
      assert Reverse(es) + history == rest + x;
      var m := Min(|x|, MaxHistory);
      assert h1 == x[..m];
      var n := Min(|rest| + m, MaxHistory);
      PrefixOfTruncated(rest, x, m, n);
    }
  }

  /** Cutting the tail of `x` short does not affect a prefix that does not
      reach the cut. */
  lemma PrefixOfTruncated<T>(a: seq<T>, x: seq<T>, m: nat, n: nat)
    requires m <= |x| && n <= |a| + m
    ensures (a + x[..m])[..n] == (a + x)[..n]
  {
    assert forall i :: 0 <= i < n ==> (a + x[..m])[i] == (a + x)[i];
  }
}

=== FILE: items.dfy ===
/** The wheel's option list and the edits the user can make to it: add,
    edit in place, remove, clear and replace with a preset. Labels are
    compared the way `Array.prototype.includes` compares strings, by exact
    equality. */
module Items {
  import opened Text
  import opened Optional

  /** No label occurs twice. */
  predicate Distinct(items: seq<string>) {
    forall i, j :: 0 <= i < j < |items| ==> items[i] != items[j]
  }

  /** A label the editor can produce: non-empty, with no white space at
      either end. */
  predicate ValidLabel(s: string) {
    s != [] && IsTrimmed(s)
  }

  /** The list invariant kept by every editing operation. */
  predicate ValidList(items: seq<string>) {
    Distinct(items) && forall i :: 0 <= i < |items| ==> ValidLabel(items[i])
  }

  /** The editor accepts `text` when its trimmed form is non-empty and not
      yet on the wheel. */
  predicate Accepts(items: seq<string>, text: string) {
    Trim(text) != [] && Trim(text) !in items
  }

  /** `addItem`: appends the trimmed input if it is accepted; otherwise the
      list is unchanged. */
  function AddItem(items: seq<string>, input: string): (r: seq<string>)
    ensures Accepts(items, input) ==> |r| == |items| + 1 && r[..|items|] == items && r[|items|] == Trim(input)
    ensures !Accepts(items, input) ==> r == items
    ensures forall x :: x in r <==> x in items || (x == Trim(input) && Accepts(items, input))
  {
    var t := Trim(input);
    if t != [] && t !in items then items + [t] else items
  }

  /** `editItem`: the user's answer to the prompt (None when it is
      cancelled) replaces slot `index` if it is accepted. */
  function EditItem(items: seq<string>, index: int, answer: Option<string>): (r: seq<string>)
    requires 0 <= index < |items|
    ensures |r| == |items|
    ensures forall j :: 0 <= j < |items| && j != index ==> r[j] == items[j]
    ensures answer.Some? && Accepts(items, answer.value) ==> r[index] == Trim(answer.value)
    ensures !(answer.Some? && Accepts(items, answer.value)) ==> r == items
  {
    match answer
    case None => items
    case Some(text) =>
      var t := Trim(text);
      if text != [] && t != [] && t !in items then items[index := t] else items
  }

  /** Where `Array.prototype.splice(index, 1)` starts deleting: a negative
      index counts from the end (clamped at 0), a large one is clamped to
      the length. */
  function SpliceStart(index: int, len: nat): (k: nat)
    ensures k <= len
    ensures 0 <= index <= len ==> k == index
    ensures index < 0 && 0 <= len + index ==> k == len + index
    ensures len + index < 0 ==> k == 0
    ensures index > len ==> k == len
  {
    if index < 0 then (if len + index < 0 then 0 else len + index)
    else if index < len then index else len
  }

  /** `removeItem`: `splice(index, 1)` deletes the slot it starts at, if
      there is one, and shifts the later items down by one. */
  function RemoveItem(items: seq<string>, index: int): (r: seq<string>)
    ensures var k := SpliceStart(index, |items|);
      && (k < |items| ==> |r| == |items| - 1)
      && (k == |items| ==> r == items)
      && (forall j :: 0 <= j < |r| ==> r[j] == items[if j < k then j else j + 1])
  {
    var k := SpliceStart(index, |items|);
    if k < |items| then items[..k] + items[k + 1..] else items
  }

  /** `clearAll`: empties the list once the user confirms. */
  function ClearAll(items: seq<string>, confirmed: bool): (r: seq<string>)
    ensures confirmed ==> r == []
    ensures !confirmed ==> r == items
  {
    if confirmed then [] else items
  }

  /** The four built-in option lists. */
  datatype Preset = YesNo | Numbers | Colors | Food

  /** `loadPreset`: a fresh copy of the chosen preset replaces the list. */
  function LoadPreset(p: Preset): (r: seq<string>)
    ensures p.YesNo? ==> |r| == 2
    ensures p.Numbers? ==> |r| == 10
    ensures p.Colors? || p.Food? ==> |r| == 6
  {
    match p
    case YesNo => ["Yes", "No"]
    case Numbers => ["1", "2", "3", "4", "5", "6", "7", "8", "9", "10"]
    case Colors => ["Red", "Blue", "Green", "Yellow", "Purple", "Orange"]
    case Food => ["Pizza", "Burger", "Sushi", "Pasta", "Tacos", "Salad"]
  }

  /** Adding keeps the list invariant. */
  lemma AddItemKeepsValid(items: seq<string>, input: string)
    requires ValidList(items)
    ensures ValidList(AddItem(items, input))
  {
    if Accepts(items, input) {
      var r := AddItem(items, input);
      assert r == items + [Trim(input)];
    }
  }

  /** Adding the same text twice adds it once. */
  lemma AddItemIdempotent(items: seq<string>, input: string)
    ensures AddItem(AddItem(items, input), input) == AddItem(items, input)
  {
  }

  /** Editing keeps the list invariant. */
  lemma EditItemKeepsValid(items: seq<string>, index: int, answer: Option<string>)
    requires ValidList(items)
    requires 0 <= index < |items|
    ensures ValidList(EditItem(items, index, answer))
  {
  }

  /** Re-entering the label a slot already shows is a no-op. */
  lemma EditToSameLabelIsNoOp(items: seq<string>, index: int)
    requires ValidList(items)
    requires 0 <= index < |items|
    ensures EditItem(items, index, Some(items[index])) == items
  {
    TrimOfTrimmed(items[index]);
  }

  /** An accepted edit can be undone by editing the slot back to its old
      label. */
  lemma {:induction false} EditItemUndo(items: seq<string>, index: int, text: string)
    requires ValidList(items)
    requires 0 <= index < |items|
    requires Accepts(items, text)
    ensures EditItem(EditItem(items, index, Some(text)), index, Some(items[index])) == items
  {
    var e := EditItem(items, index, Some(text));
    var prev := items[index];
    TrimOfTrimmed(prev);
    assert prev !in e by {
      forall j | 0 <= j < |e| ensures e[j] != prev {
        if j != index { assert e[j] == items[j]; }
      }
    }
    assert e[index := prev] == items;
  }

  /** Removing keeps the list invariant. */
  lemma RemoveItemKeepsValid(items: seq<string>, index: int)
    requires ValidList(items)
    ensures ValidList(RemoveItem(items, index))
  {
    var r := RemoveItem(items, index);
    var k := SpliceStart(index, |items|);
    forall i, j | 0 <= i < j < |r| ensures r[i] != r[j] {
      assert r[i] == items[if i < k then i else i + 1];
      assert r[j] == items[if j < k then j else j + 1];
    }
    forall i | 0 <= i < |r| ensures ValidLabel(r[i]) {
      assert r[i] == items[if i < k then i else i + 1];
    }
  }

  /** For an index inside the list, removal is exactly "everything before
      it, then everything after it", and the removed label leaves the
      multiset of labels. */
  lemma RemoveItemInRange(items: seq<string>, index: int)
    requires 0 <= index < |items|
    ensures RemoveItem(items, index) == items[..index] + items[index + 1..]
    ensures multiset(RemoveItem(items, index)) + multiset{items[index]} == multiset(items)
  {
    assert items == items[..index] + [items[index]] + items[index + 1..];
  }

  /** Removing the last slot undoes an accepted add. */
  lemma RemoveUndoesAdd(items: seq<string>, input: string)
    requires Accepts(items, input)
    ensures RemoveItem(AddItem(items, input), |items|) == items
  {
    var a := AddItem(items, input);
    assert a[..|items|] == items;
  }

  /** Clearing keeps the list invariant. */
  lemma ClearAllKeepsValid(items: seq<string>, confirmed: bool)
    requires ValidList(items)
    ensures ValidList(ClearAll(items, confirmed))
  {
  }

  /** Every preset satisfies the list invariant. */
  lemma PresetsAreValid(p: Preset)
    ensures ValidList(LoadPreset(p))
  {
    var r := LoadPreset(p);
    forall i, j | 0 <= i < j < |r| ensures r[i] != r[j] {
      if p.Numbers? && j == 9 { assert |r[i]| != |r[j]|; }
    }
    forall i | 0 <= i < |r| ensures ValidLabel(r[i]) {
      assert r[i] != [];
      assert 0x30 <= r[i][0] as int <= 0x7A;
      assert 0x30 <= r[i][|r[i]| - 1] as int <= 0x7A;
    }
  }
}

=== FILE: locator.dfy ===
/** `showResult`: which sector is under the pointer once the wheel is at
    rest. Sector `i` of `n` is drawn from `i * 2π/n + rotation` to
    `(i + 1) * 2π/n + rotation`, so the sector under a pointer fixed at
    canvas angle 0 is the one that covers `2π - rotation`. */
module Locator {
  import opened Angles
  import opened Optional

  /** The angular width of one of `n` equal sectors. */
  function SectorWidth(n: int): (w: real)
    requires n >= 1
    ensures w > 0.0
    ensures w * n as real == TwoPi
  {
    TwoPi / n as real
  }

  /** `(2 * Math.PI - currentRotation) % (2 * Math.PI)`: how far past the
      start of sector 0 the pointer sits. */
  function PointerOffset(rot: real): (off: real)
    requires rot <= TwoPi
    ensures 0.0 <= off < TwoPi
  {
    RealRem(TwoPi - rot, TwoPi)
  }

  /** `Math.floor(normalizedRotation / anglePerItem) % items.length`. For a
      wheel at rest in `[0, 2π]` it is the sector whose span holds the
      pointer offset. */
  function Locate(rot: real, n: int): (i: int)
    requires n >= 1
    ensures 0.0 <= rot <= TwoPi ==>
      && 0 <= i < n
      && i as real * SectorWidth(n) <= PointerOffset(rot) < (i + 1) as real * SectorWidth(n)
  {
    var k := (RealRem(TwoPi - rot, TwoPi) / SectorWidth(n)).Floor;
    LocateCell(rot, n);
    IntRem(k, n)
  }

  /** For a wheel in `[0, 2π]` the floored quotient already names one of the
      `n` sectors, so the trailing `% n` leaves it alone. */
  lemma LocateCell(rot: real, n: int)
    requires n >= 1
    ensures 0.0 <= rot <= TwoPi ==>
      var norm := RealRem(TwoPi - rot, TwoPi);
      var k := (norm / SectorWidth(n)).Floor;
      && IntRem(k, n) == k
      && k as real * SectorWidth(n) <= norm < (k + 1) as real * SectorWidth(n)
  {
    if 0.0 <= rot <= TwoPi {
      var norm := RealRem(TwoPi - rot, TwoPi);
      FloorInSector(norm, n);
      IntRemOfInRange((norm / SectorWidth(n)).Floor, n);
    }
  }

  /** The sector that `floor(off / w)` names covers `off`, and it is one of
      the `n` sectors. */
  lemma FloorInSector(off: real, n: int)
    requires n >= 1
    requires 0.0 <= off < TwoPi
    ensures var w := SectorWidth(n); var k := (off / w).Floor;
      && 0 <= k < n
      && k as real * w <= off < (k + 1) as real * w
  {
    var w := SectorWidth(n);
    assert off < n as real * w;
    FloorCell(off, w, n);
  }

  /** Cell `floor(off / w)` of a grid of `n` cells of width `w` holds
      `off`. */
  lemma FloorCell(off: real, w: real, n: int)
    requires w > 0.0 && 0.0 <= off < n as real * w
    ensures var k := (off / w).Floor;
      && 0 <= k < n
      && k as real * w <= off < (k + 1) as real * w
  {
    var k := (off / w).Floor;
    TruncScaled(off, w);
    assert k == Trunc(off / w);
    assert k as real * w <= off < k as real * w + w;
    assert k as real * w < n as real * w;
    MulCancelStrict(k as real, n as real, w);
    assert (k + 1) as real * w == k as real * w + w;
  }

  /** Cells of a grid do not overlap. */
  lemma CellUnique(off: real, w: real, k: int, i: int)
    requires w > 0.0
    requires k as real * w <= off < (k + 1) as real * w
    requires i as real * w <= off < (i + 1) as real * w
    ensures k == i
  {
    CellBefore(off, w, k, i);
    CellBefore(off, w, i, k);
  }

  /** A cell starting at or before `off` does not lie past a cell ending
      after it. */
  lemma CellBefore(off: real, w: real, k: int, i: int)
    requires w > 0.0
    requires k as real * w <= off < (i + 1) as real * w
    ensures k <= i
  {
    var a, b := k as real * w, (i + 1) as real * w;
    assert a < b;
    MulCancelStrict(k as real, (i + 1) as real, w);
  }

  /** The located sector is the only one covering the pointer offset: any
      sector that covers it is the one `Locate` returns. */
  lemma LocateUnique(rot: real, n: int, i: int)
    requires n >= 1
    requires 0.0 <= rot <= TwoPi
    requires 0 <= i < n
    requires i as real * SectorWidth(n) <= PointerOffset(rot) < (i + 1) as real * SectorWidth(n)
    ensures Locate(rot, n) == i
  {
    CellUnique(PointerOffset(rot), SectorWidth(n), Locate(rot, n), i);
  }

  /** The located sector is the one drawn under canvas angle 0 (equivalently
      2π): with the wheel at rest at `rot`, sector `i` spans
      `[i * w + rot, (i + 1) * w + rot)`. */
  lemma LocateMatchesDrawing(rot: real, n: int)
    requires n >= 1
    requires 0.0 <= rot < TwoPi
    ensures var i := Locate(rot, n); var w := SectorWidth(n);
      && (rot == 0.0 ==> i == 0 && i as real * w + rot <= 0.0 < (i + 1) as real * w + rot)
      && (rot > 0.0 ==> i as real * w + rot <= TwoPi < (i + 1) as real * w + rot)
  {
    var i := Locate(rot, n);
    var w := SectorWidth(n);
    if rot == 0.0 {
      RealRemPeriodic(0.0, 1, TwoPi);
      RealRemOfReduced(0.0, TwoPi);
      assert PointerOffset(rot) == 0.0;
      LocateUnique(rot, n, 0);
    } else {
      RealRemOfReduced(TwoPi - rot, TwoPi);
      assert PointerOffset(rot) == TwoPi - rot;
    }
  }

  /** `items[winnerIndex]`: the winning label, or None (JavaScript's
      `undefined`) when the index is not a slot of the list, which happens
      only for an empty list or a rotation outside `[0, 2π]`. */
  function Winner(items: seq<string>, rot: real): (w: Option<string>)
    ensures 0.0 <= rot <= TwoPi && |items| >= 1 ==>
      w.Some? && w.value == items[Locate(rot, |items|)]
    ensures |items| == 0 ==> w.None?
  {
    if |items| == 0 then None
    else
      var i := Locate(rot, |items|);
      if 0 <= i < |items| then Some(items[i]) else None
  }
}

=== FILE: optional.dfy ===
/** A JavaScript value that may be missing (`undefined`, `null`, or a property
    that is not there), as seen after a document has been parsed. */
module Optional {

  datatype Option<+T> = None | Some(value: T) {

    /** The value if present, otherwise `default` (the `x || default`
        fallback for values that are never falsy, such as arrays). */
    function GetOr(default: T): T {
      match this
      case Some(v) => v
      case None => default
    }
  }
}

=== FILE: persistence.dfy ===
/** The state document the wheel saves and reads back (`saveToStorage`,
    `loadFromStorage`), the exported configuration file (`saveWheel`,
    `loadWheel`), and the spin-duration setting. A document is modelled as
    already parsed: a field is None when it is missing, and the fields that
    are present have the types the wheel writes. */
module Persistence {
  import opened Optional
  import opened History

  datatype Settings = Settings(wheelSize: int, spinDuration: int, soundEnabled: bool, darkMode: bool)

  /** The constructor's settings: a 400-pixel wheel, 4000 ms spins, sound on,
      light mode. */
  const DefaultSettings := Settings(400, 4000, true, false)

  datatype SettingsDoc = SettingsDoc(
    wheelSize: Option<int>,
    spinDuration: Option<int>,
    soundEnabled: Option<bool>,
    darkMode: Option<bool>)

  datatype Document = Document(
    items: Option<seq<string>>,
    history: Option<seq<HistoryEntry>>,
    settings: Option<SettingsDoc>)

  /** The part of the wheel's state that documents carry. */
  datatype Snapshot = Snapshot(items: seq<string>, history: seq<HistoryEntry>, settings: Settings)

  /** `n || fallback` for a number: 0 is falsy, so it falls back too. */
  function NumberOr(n: Option<int>, fallback: int): (r: int)
    ensures n.Some? && n.value != 0 ==> r == n.value
    ensures n.None? || n.value == 0 ==> r == fallback
  {
    if n.Some? && n.value != 0 then n.value else fallback
  }

  /** The `if (data.settings) { ... }` block: an absent settings object
      leaves the current settings alone; otherwise every field is read with
      its own fallback. */
  function ApplySettings(current: Settings, doc: Option<SettingsDoc>): (s: Settings)
    ensures doc.None? ==> s == current
    ensures doc.Some? ==> s.wheelSize == NumberOr(doc.value.wheelSize, 400)
    ensures doc.Some? ==> s.spinDuration == NumberOr(doc.value.spinDuration, 4000)
    ensures doc.Some? ==> (s.soundEnabled <==> doc.value.soundEnabled != Some(false))
    ensures doc.Some? ==> (s.darkMode <==> doc.value.darkMode == Some(true))
  {
    match doc
    case None => current
    case Some(d) =>
      Settings(
        NumberOr(d.wheelSize, 400),
        NumberOr(d.spinDuration, 4000),
        d.soundEnabled != Some(false),
        d.darkMode.GetOr(false))
  }

  function SettingsToDoc(s: Settings): SettingsDoc {
    SettingsDoc(Some(s.wheelSize), Some(s.spinDuration), Some(s.soundEnabled), Some(s.darkMode))
  }

  /** `saveToStorage`: items, history and all four settings. */
  function SaveDocument(s: Snapshot): (d: Document)
    ensures d.items == Some(s.items) && d.history == Some(s.history)
    ensures d.settings.Some? && d.settings.value == SettingsToDoc(s.settings)
    ensures d.history.Some? && ExportDocument(s) == d.(history := None)
  {
    Document(Some(s.items), Some(s.history), Some(SettingsToDoc(s.settings)))
  }

  /** `loadFromStorage`: items and history default to empty lists, settings
      are applied field by field. */
  function LoadDocument(current: Snapshot, d: Document): (s: Snapshot)
    ensures d.items.Some? ==> s.items == d.items.value
    ensures d.items.None? ==> s.items == []
    ensures d.history.Some? ==> s.history == d.history.value
    ensures d.history.None? ==> s.history == []
    ensures s.settings == ApplySettings(current.settings, d.settings)
    ensures ImportDocument(current, d) == s.(history := current.history)
  {
    Snapshot(d.items.GetOr([]), d.history.GetOr([]), ApplySettings(current.settings, d.settings))
  }

  /** `saveWheel`: the exported file holds the items and settings but no
      history. */
  function ExportDocument(s: Snapshot): (d: Document)
    ensures d.history.None?
  {
    Document(Some(s.items), None, Some(SettingsToDoc(s.settings)))
  }

  /** `loadWheel` after a successful parse: like `loadFromStorage` but the
      history is never read. */
  function ImportDocument(current: Snapshot, d: Document): (s: Snapshot)
    ensures s.history == current.history
    ensures d.items.Some? ==> s.items == d.items.value
    ensures d.items.None? ==> s.items == []
    ensures s.settings == ApplySettings(current.settings, d.settings)
  {
    Snapshot(d.items.GetOr([]), current.history, ApplySettings(current.settings, d.settings))
  }

  /** A document with nothing in it empties the lists and leaves the
      settings alone; a document with an empty settings object restores the
      default settings. */
  lemma LoadDefaults(current: Snapshot)
    ensures LoadDocument(current, Document(None, None, None)) == current.(items := [], history := [])
    ensures LoadDocument(current, Document(None, None, Some(SettingsDoc(None, None, None, None)))).settings
      == DefaultSettings
  {
  }

  /** The same defaulting for an imported file: no items gives an empty
      list, no settings keeps the current settings, an empty settings
      object restores the defaults, and the history is never touched. */
  lemma ImportDefaults(current: Snapshot)
    ensures ImportDocument(current, Document(None, None, None)) == current.(items := [])
    ensures ImportDocument(current, Document(None, Some([]), None)) == current.(items := [])
    ensures ImportDocument(current, Document(None, None, Some(SettingsDoc(None, None, None, None)))).settings
      == DefaultSettings
  {
  }

  /** Saving and loading back gives the same items, history and settings,
      exactly when neither numeric setting is 0 (a 0 is read back as its
      default). */
  lemma SaveLoadRoundTrip(current: Snapshot, s: Snapshot)
    ensures LoadDocument(current, SaveDocument(s)) == s
      <==> s.settings.wheelSize != 0 && s.settings.spinDuration != 0
  {
  }

  /** Exporting and importing back gives the same items and settings under
      the same condition; the history in memory is kept. */
  lemma ExportImportRoundTrip(current: Snapshot, s: Snapshot)
    ensures ImportDocument(current, ExportDocument(s)) == s.(history := current.history)
      <==> s.settings.wheelSize != 0 && s.settings.spinDuration != 0
  {
  }

  /** `updateSpinDuration`: the slider value in seconds is stored in
      milliseconds; no other setting changes. */
  function UpdateSpinDuration(s: Settings, seconds: int): (r: Settings)
    ensures r.wheelSize == s.wheelSize && r.soundEnabled == s.soundEnabled && r.darkMode == s.darkMode
    ensures DisplayedSeconds(r) == seconds as real
  {
    s.(spinDuration := seconds * 1000)
  }

  /** `spinDuration / 1000`, as shown on the slider and its label. */
  function DisplayedSeconds(s: Settings): (r: real)
    ensures r * 1000.0 == s.spinDuration as real
    ensures s.spinDuration % 1000 == 0 ==> r == (s.spinDuration / 1000) as real
  {
    s.spinDuration as real / 1000.0
  }
}

=== FILE: text.dfy ===
/** `String.prototype.trim` as used by the option editor: strips ECMAScript
    white space and line terminators from both ends of a label. */
module Text {

  /** ECMAScript WhiteSpace and LineTerminator code points: TAB, LF, VT, FF,
      CR, SPACE, NBSP, the Zs category, LS, PS and the byte-order mark. */
  predicate IsWhiteSpace(c: char) {
    var k := c as int;
    || k == 0x09 || k == 0x0A || k == 0x0B || k == 0x0C || k == 0x0D
    || k == 0x20 || k == 0xA0 || k == 0x1680
    || (0x2000 <= k <= 0x200A)
    || k == 0x2028 || k == 0x2029 || k == 0x202F || k == 0x205F
    || k == 0x3000 || k == 0xFEFF
  }

  /** A label with no white space at either end. */
  predicate IsTrimmed(s: string) {
    s == [] || (!IsWhiteSpace(s[0]) && !IsWhiteSpace(s[|s| - 1]))
  }

  /** Drops leading white space: the result is the suffix of `s` that starts
      at its first non-white character. */
  function TrimStart(s: string): (r: string)
    ensures |r| <= |s| && r == s[|s| - |r|..]
    ensures forall i :: 0 <= i < |s| - |r| ==> IsWhiteSpace(s[i])
    ensures r == [] || !IsWhiteSpace(r[0])
    decreases |s|
  {
    if |s| > 0 && IsWhiteSpace(s[0]) then TrimStart(s[1..]) else s
  }

  /** Drops trailing white space: the result is the prefix of `s` that ends
      at its last non-white character. */
  function TrimEnd(s: string): (r: string)
    ensures |r| <= |s| && r == s[..|r|]
    ensures forall i :: |r| <= i < |s| ==> IsWhiteSpace(s[i])
    ensures r == [] || !IsWhiteSpace(r[|r| - 1])
    decreases |s|
  {
    if |s| > 0 && IsWhiteSpace(s[|s| - 1]) then TrimEnd(s[..|s| - 1]) else s
  }

  /** `s.trim()`: the part of `s` between its first and last non-white
      characters. */
  function Trim(s: string): (r: string)
    ensures IsTrimmed(r)
    ensures var a := |s| - |TrimStart(s)|;
      && a + |r| <= |s|
      && r == s[a..a + |r|]
      && (forall i :: 0 <= i < a ==> IsWhiteSpace(s[i]))
      && (forall i :: a + |r| <= i < |s| ==> IsWhiteSpace(s[i]))
  {
    TrimEnd(TrimStart(s))
  }

  /** `trim` yields the empty string (a falsy value) exactly when every
      character of the input is white space. */
  lemma TrimEmptyIff(s: string)
    ensures Trim(s) == [] <==> forall i :: 0 <= i < |s| ==> IsWhiteSpace(s[i])
  {
    var t := TrimStart(s);
    var a := |s| - |t|;
    if Trim(s) == [] {
      assert t == [];
    } else {
      assert !IsWhiteSpace(s[a]);
    }
  }

  /** Leading white space in front of a string that does not start with
      white space is exactly what `TrimStart` removes. */
  lemma {:induction false} TrimStartPadding(pre: string, u: string)
    requires forall i :: 0 <= i < |pre| ==> IsWhiteSpace(pre[i])
    requires u == [] || !IsWhiteSpace(u[0])
    ensures TrimStart(pre + u) == u
    decreases |pre|
  {
    if pre == [] {
      assert pre + u == u;
    } else {
      assert (pre + u)[1..] == pre[1..] + u;
      TrimStartPadding(pre[1..], u);
    }
  }

  /** Trailing white space after a string that does not end with white
      space is exactly what `TrimEnd` removes. */
  lemma {:induction false} TrimEndPadding(u: string, post: string)
    requires forall i :: 0 <= i < |post| ==> IsWhiteSpace(post[i])
    requires u == [] || !IsWhiteSpace(u[|u| - 1])
    ensures TrimEnd(u + post) == u
    decreases |post|
  {
    if post == [] {
      assert u + post == u;
    } else {
      var x := u + post;
      assert x[..|x| - 1] == u + post[..|post| - 1];
      TrimEndPadding(u, post[..|post| - 1]);
    }
  }

  /** A label that is already trimmed is left alone by `trim`. */
  lemma TrimOfTrimmed(s: string)
    requires IsTrimmed(s)
    ensures Trim(s) == s
  {
    assert TrimStart(s) == s;
    assert TrimEnd(s) == s;
  }

  /** Trimming twice is the same as trimming once. */
  lemma TrimIdempotent(s: string)
    ensures Trim(Trim(s)) == Trim(s)
  {
    TrimOfTrimmed(Trim(s));
  }

  /** Whatever white space surrounds a trimmed string, `trim` recovers
      exactly that string. */
  lemma TrimStripsPadding(pre: string, s: string, post: string)
    requires forall i :: 0 <= i < |pre| ==> IsWhiteSpace(pre[i])
    requires forall i :: 0 <= i < |post| ==> IsWhiteSpace(post[i])
    requires IsTrimmed(s)
    ensures Trim(pre + s + post) == s
  {
    if s == [] {
      var w := pre + post;
      assert pre + s + post == w;
      forall i | 0 <= i < |w| ensures IsWhiteSpace(w[i]) {
        if i >= |pre| { assert w[i] == post[i - |pre|]; }
      }
      TrimEmptyIff(w);
    } else {
      assert pre + s + post == pre + (s + post);
      TrimStartPadding(pre, s + post);
      TrimEndPadding(s, post);
    }
  }
}

=== FILE: wheel.dfy ===
/** The `WheelRoller` object as a value: its option list, history and
    settings, the current rotation, whether a spin is in flight, and the
    document last written by `saveToStorage` (`window.wheelData`). Every
    handler is a function from the old state to the new one; the user's
    answers, the random draw, the elapsed time and the time-of-day string
    are parameters. */
module WheelRoller {
  import opened Optional
  import opened Angles
  import Items
  import opened Animation
  import opened Locator
  import opened History
  import opened Persistence

  /** `isSpinning`, together with what the running animation closure
      captured when the spin began. */
  datatype Phase = Idle | Spinning(start: real, amount: real)

  datatype Wheel = Wheel(
    items: seq<string>,
    history: seq<HistoryEntry>,
    settings: Settings,
    rotation: real,
    phase: Phase,
    stored: Option<Document>)
  {
    predicate IsSpinning() {
      phase.Spinning?
    }
  }

  function Persisted(w: Wheel): Snapshot {
    Snapshot(w.items, w.history, w.settings)
  }

  function WithPersisted(w: Wheel, s: Snapshot): Wheel {
    w.(items := s.items, history := s.history, settings := s.settings)
  }

  /** The rotation invariant: at rest the wheel is within one turn; during
      a spin it started within one turn, is turning forward by five to
      fifteen turns, and is never drawn past its target. (It can be drawn
      behind its start: see `NegativeDurationSpinStalls`.) */
  predicate RotationInv(w: Wheel) {
    match w.phase
    case Idle => 0.0 <= w.rotation < TwoPi
    case Spinning(start, amount) =>
      && 0.0 <= start < TwoPi
      && 5.0 * TwoPi <= amount < 15.0 * TwoPi
      && w.rotation <= start + amount
  }

  /** `saveToStorage`. */
  function Save(w: Wheel): (r: Wheel)
    ensures r.stored == Some(SaveDocument(Persisted(w)))
    ensures r.stored.Some? && LoadDocument(Persisted(w), r.stored.value).items == w.items
    ensures Persisted(r) == Persisted(w) && r.rotation == w.rotation && r.phase == w.phase
  {
    w.(stored := Some(SaveDocument(Persisted(w))))
  }

  /** `loadFromStorage`: nothing happens unless a document was stored. */
  function LoadFromStorage(w: Wheel): (r: Wheel)
    ensures w.stored.None? ==> r == w
    ensures w.stored.Some? ==> Persisted(r) == LoadDocument(Persisted(w), w.stored.value)
    ensures r.rotation == w.rotation && r.phase == w.phase && r.stored == w.stored
  {
    match w.stored
    case None => w
    case Some(d) => WithPersisted(w, LoadDocument(Persisted(w), d))
  }

  /** `window.wheelData?.settings?.darkMode`: the dark-mode flag of the
      stored document, if it has one. */
  function SavedDarkMode(stored: Option<Document>): Option<bool> {
    if stored.Some? && stored.value.settings.Some? then stored.value.settings.value.darkMode else None
  }

  /** The constructor: an empty wheel at rotation 0 with the default
      settings, then `loadFromStorage` over whatever document is stored,
      then `initDarkMode`, which takes the stored dark-mode flag when there
      is one and the system preference `systemDark` otherwise. */
  function Init(stored: Option<Document>, systemDark: bool): (w: Wheel)
    ensures RotationInv(w) && !w.IsSpinning() && w.stored == stored
    ensures stored.None? ==> w.items == [] && w.history == []
    ensures stored.None? ==> w.settings == DefaultSettings.(darkMode := systemDark)
    ensures stored.Some? ==>
      var loaded := LoadDocument(Snapshot([], [], DefaultSettings), stored.value);
      && w.items == loaded.items && w.history == loaded.history
      && w.settings.(darkMode := false) == loaded.settings.(darkMode := false)
    ensures SavedDarkMode(stored).Some? ==> w.settings.darkMode == SavedDarkMode(stored).value
    ensures SavedDarkMode(stored).None? ==> w.settings.darkMode == systemDark
  {
    var loaded := LoadFromStorage(Wheel([], [], DefaultSettings, 0.0, Idle, stored));
    loaded.(settings := loaded.settings.(darkMode := SavedDarkMode(stored).GetOr(systemDark)))
  }

  /** The `prefers-color-scheme` listener installed by `initDarkMode`: the
      system preference is followed only while the stored document has no
      dark-mode flag. Nothing is saved. */
  function SystemThemeChanged(w: Wheel, dark: bool): (r: Wheel)
    ensures SavedDarkMode(w.stored).None? ==> r.settings.darkMode == dark
    ensures SavedDarkMode(w.stored).Some? ==> r == w
    ensures r == w.(settings := w.settings.(darkMode := r.settings.darkMode))
  {
    if SavedDarkMode(w.stored).None? then w.(settings := w.settings.(darkMode := dark)) else w
  }

  /** `toggleDarkMode`: flips the flag and saves. */
  function ToggleDarkMode(w: Wheel): (r: Wheel)
    ensures r.settings.darkMode == !w.settings.darkMode
    ensures r == Save(w.(settings := w.settings.(darkMode := r.settings.darkMode)))
  {
    Save(w.(settings := w.settings.(darkMode := !w.settings.darkMode)))
  }

  /** `toggleSound`: `checked` is the state of the checkbox; saved. */
  function ToggleSound(w: Wheel, checked: bool): (r: Wheel)
    ensures r.settings.soundEnabled == checked
    ensures r == Save(w.(settings := w.settings.(soundEnabled := checked)))
  {
    Save(w.(settings := w.settings.(soundEnabled := checked)))
  }

  /** `updateWheelSize`: the slider value becomes the wheel size, which the
      next save writes; this handler itself does not save. */
  function SetWheelSize(w: Wheel, size: int): (r: Wheel)
    ensures r.settings.wheelSize == size
    ensures r == w.(settings := w.settings.(wheelSize := size))
  {
    w.(settings := w.settings.(wheelSize := size))
  }

  /** Toggling dark mode twice is the same as saving the wheel as it was. */
  lemma ToggleDarkModeTwice(w: Wheel)
    ensures ToggleDarkMode(ToggleDarkMode(w)) == Save(w)
  {
  }

  /** Once any save has written the dark-mode flag, a change of the system
      preference no longer affects the wheel. */
  lemma SavedThemeIgnoresSystem(w: Wheel, dark: bool)
    ensures SystemThemeChanged(Save(w), dark) == Save(w)
    ensures SystemThemeChanged(ToggleDarkMode(w), dark) == ToggleDarkMode(w)
  {
  }

  /** A wheel size set on the slider, and the sound checkbox state, are
      read back from the next save (a size of 0 reads back as 400). */
  lemma SettingsSurviveReload(v: Wheel, w: Wheel, size: int, checked: bool)
    ensures var saved := Save(ToggleSound(SetWheelSize(w, size), checked));
      var back := LoadFromStorage(v.(stored := saved.stored)).settings;
      && back.soundEnabled == checked
      && (size != 0 ==> back.wheelSize == size)
      && (size == 0 ==> back.wheelSize == 400)
  {
  }

  /** `addItem`: saved only when the text was accepted. */
  function AddItem(w: Wheel, input: string): (r: Wheel)
    ensures r.items == Items.AddItem(w.items, input)
    ensures !Items.Accepts(w.items, input) ==> r == w
    ensures Items.Accepts(w.items, input) ==> r == Save(w.(items := r.items))
  {
    if Items.Accepts(w.items, input) then Save(w.(items := Items.AddItem(w.items, input))) else w
  }

  /** `removeItem`: always saved. */
  function RemoveItem(w: Wheel, index: int): (r: Wheel)
    ensures r.items == Items.RemoveItem(w.items, index)
    ensures r == Save(w.(items := r.items))
  {
    Save(w.(items := Items.RemoveItem(w.items, index)))
  }

  /** `editItem` for a slot of the list; `answer` is what `prompt`
      returned. Saved only when the edit was accepted. */
  function EditItem(w: Wheel, index: int, answer: Option<string>): (r: Wheel)
    requires 0 <= index < |w.items|
    ensures r.items == Items.EditItem(w.items, index, answer)
    ensures !(answer.Some? && Items.Accepts(w.items, answer.value)) ==> r == w
    ensures answer.Some? && Items.Accepts(w.items, answer.value) ==> r == Save(w.(items := r.items))
  {
    if answer.Some? && Items.Accepts(w.items, answer.value) then
      Save(w.(items := Items.EditItem(w.items, index, answer)))
    else
      w
  }

  /** `clearAll`; `confirmed` is what `confirm` returned. */
  function ClearAll(w: Wheel, confirmed: bool): (r: Wheel)
    ensures confirmed ==> r.items == [] && r.stored.Some? && r.stored.value.items == Some([])
    ensures confirmed ==> r == Save(w.(items := []))
    ensures !confirmed ==> r == w
  {
    if confirmed then Save(w.(items := Items.ClearAll(w.items, confirmed))) else w
  }

  /** `loadPreset`: replaces the list and saves. */
  function LoadPreset(w: Wheel, p: Items.Preset): (r: Wheel)
    ensures r.items == Items.LoadPreset(p) && r == Save(w.(items := r.items))
  {
    Save(w.(items := Items.LoadPreset(p)))
  }

  /** `updateSpinDuration`: changes the setting but does not save, so the
      stored document keeps the old duration until the next save. */
  function SetSpinDuration(w: Wheel, seconds: int): (r: Wheel)
    ensures DisplayedSeconds(r.settings) == seconds as real
    ensures r.stored == w.stored && r.items == w.items && r.history == w.history
    ensures r.rotation == w.rotation && r.phase == w.phase
    ensures r == w.(settings := UpdateSpinDuration(w.settings, seconds))
  {
    w.(settings := UpdateSpinDuration(w.settings, seconds))
  }

  /** `loadWheel`: `parsed` is None when the file could not be parsed, in
      which case nothing changes. A parsed file replaces the items and
      settings but is not saved. */
  function ImportFile(w: Wheel, parsed: Option<Document>): (r: Wheel)
    ensures parsed.None? ==> r == w
    ensures parsed.Some? ==> Persisted(r) == ImportDocument(Persisted(w), parsed.value)
    ensures r.history == w.history && r.stored == w.stored
    ensures r.rotation == w.rotation && r.phase == w.phase
  {
    match parsed
    case None => w
    case Some(d) => WithPersisted(w, ImportDocument(Persisted(w), d))
  }

  /** The guard of `spinWheel` (and of the Space-key handler). */
  predicate CanSpin(w: Wheel) {
    !w.IsSpinning() && |w.items| >= 2
  }

  /** `spinWheel` with `Math.random()` returning `r`: refused while a spin
      is running or with fewer than two items; otherwise the spin starts
      from the current rotation. Nothing is saved. */
  function RequestSpin(w: Wheel, r: real): (w': Wheel)
    requires 0.0 <= r < 1.0
    ensures !CanSpin(w) ==> w' == w
    ensures CanSpin(w) ==> w'.IsSpinning() && w'.phase.start == w.rotation
    ensures CanSpin(w) ==> 5.0 * TwoPi <= w'.phase.amount < 15.0 * TwoPi
    ensures w'.items == w.items && w'.history == w.history && w'.settings == w.settings
    ensures w'.rotation == w.rotation && w'.stored == w.stored
  {
    if CanSpin(w) then w.(phase := Spinning(w.rotation, SpinAmount(r))) else w
  }

  /** `spinWheel` as a whole: after the set-up it runs the first `animate`
      call itself, before any other event can happen. `firstElapsed` is
      `Date.now() - startTime` at that call, normally 0 ms. That frame
      draws the wheel at its start when no time has passed, and it already
      ends the spin when the duration is 0 or has passed. */
  function SpinWheel(w: Wheel, r: real, firstElapsed: real, time: string): (w': Wheel)
    requires 0.0 <= r < 1.0 && firstElapsed >= 0.0
    ensures !CanSpin(w) ==> w' == w
    ensures CanSpin(w) ==> w' == Frame(RequestSpin(w, r), firstElapsed, time)
    ensures CanSpin(w) && w.settings.spinDuration != 0 && firstElapsed == 0.0 ==> w' == RequestSpin(w, r)
    ensures CanSpin(w) && (w.settings.spinDuration < 0 || firstElapsed < w.settings.spinDuration as real) ==>
      w'.IsSpinning() && w'.phase == Spinning(w.rotation, SpinAmount(r))
    ensures CanSpin(w) && w.settings.spinDuration >= 0 && firstElapsed >= w.settings.spinDuration as real ==>
      w' == Finish(RequestSpin(w, r), time)
  {
    if !CanSpin(w) then
      w
    else if w.settings.spinDuration != 0 && firstElapsed == 0.0 then
      SampleAtStart(w.rotation, SpinAmount(r), w.settings.spinDuration as real);
      Frame(RequestSpin(w, r), firstElapsed, time)
    else
      Frame(RequestSpin(w, r), firstElapsed, time)
  }

  /** With a spin duration of 0, `spinWheel` returns with the spin already
      over: the wheel rests within one turn, the item under the pointer
      heads the history, and the state is saved. */
  lemma ZeroDurationSpinEndsAtOnce(w: Wheel, r: real, firstElapsed: real, time: string)
    requires RotationInv(w) && CanSpin(w) && w.settings.spinDuration == 0
    requires 0.0 <= r < 1.0 && firstElapsed >= 0.0
    ensures var w' := SpinWheel(w, r, firstElapsed, time);
      && !w'.IsSpinning()
      && 0.0 <= w'.rotation < TwoPi
      && w'.rotation == RestingAngle(w.rotation, SpinAmount(r))
      && w'.history[0] == HistoryEntry(Some(w.items[Locate(w'.rotation, |w.items|)]), time)
      && w'.stored == Some(SaveDocument(Persisted(w')))
  {
  }

  /** The end of a spin: rest at the reduced angle, record the sector under
      the pointer (read from the items as they are now), save, clear the
      busy flag. */
  function Finish(w: Wheel, time: string): (r: Wheel)
    requires w.IsSpinning()
    ensures !r.IsSpinning()
    ensures r.rotation == RestingAngle(w.phase.start, w.phase.amount)
    ensures r.history == AddToHistory(w.history, HistoryEntry(Winner(w.items, r.rotation), time))
    ensures r.items == w.items && r.settings == w.settings
    ensures r.stored == Some(SaveDocument(Persisted(r)))
  {
    var rest := RestingAngle(w.phase.start, w.phase.amount);
    var entry := HistoryEntry(Winner(w.items, rest), time);
    Save(w.(rotation := rest, history := AddToHistory(w.history, entry))).(phase := Idle)
  }

  /** One call of the `animate` closure, `elapsed` milliseconds after the
      spin began. The duration is read from the settings at every frame.
      A duration of 0 makes the progress NaN or infinite, and either way
      `progress < 1` is false, so the spin ends on its first frame. A
      negative duration keeps the progress at or below 0, so the spin never
      ends. */
  function Frame(w: Wheel, elapsed: real, time: string): (r: Wheel)
    requires w.IsSpinning() && elapsed >= 0.0
    ensures w.settings.spinDuration == 0 ==> r == Finish(w, time)
    ensures w.settings.spinDuration != 0 && (w.settings.spinDuration < 0 || elapsed < w.settings.spinDuration as real) ==>
      r == w.(rotation := Sample(w.phase.start, w.phase.amount, elapsed, w.settings.spinDuration as real))
    ensures w.settings.spinDuration > 0 && elapsed >= w.settings.spinDuration as real ==> r == Finish(w, time)
  {
    var duration := w.settings.spinDuration as real;
    if duration == 0.0 then
      Finish(w, time)
    else if Progress(elapsed, duration) < 1.0 then
      w.(rotation := Sample(w.phase.start, w.phase.amount, elapsed, duration))
    else
      Finish(w, time)
  }

  /** Everything that can happen to the wheel. */
  datatype Event =
    | Add(input: string)
    | Remove(index: int)
    | Edit(index: int, answer: Option<string>)
    | Clear(confirmed: bool)
    | Preset(p: Items.Preset)
    | SetDuration(seconds: int)
    | SetSize(size: int)
    | ToggleSoundTo(checked: bool)
    | ToggleDark
    | SystemTheme(dark: bool)
    | Import(parsed: Option<Document>)
    | Spin(r: real, firstElapsed: real, time: string)
    | Tick(elapsed: real, time: string)

  /** When each event can occur: an edit names a slot of the list, a random
      draw is in `[0, 1)`, and animation frames happen only while a spin
      runs. */
  predicate Allowed(w: Wheel, e: Event) {
    match e
    case Edit(index, _) => 0 <= index < |w.items|
    case Spin(r, firstElapsed, _) => 0.0 <= r < 1.0 && firstElapsed >= 0.0
    case Tick(elapsed, _) => w.IsSpinning() && elapsed >= 0.0
    case _ => true
  }

  function Step(w: Wheel, e: Event): Wheel
    requires Allowed(w, e)
  {
    match e
    case Add(input) => AddItem(w, input)
    case Remove(index) => RemoveItem(w, index)
    case Edit(index, answer) => EditItem(w, index, answer)
    case Clear(confirmed) => ClearAll(w, confirmed)
    case Preset(p) => LoadPreset(w, p)
    case SetDuration(seconds) => SetSpinDuration(w, seconds)
    case SetSize(size) => SetWheelSize(w, size)
    case ToggleSoundTo(checked) => ToggleSound(w, checked)
    case ToggleDark => ToggleDarkMode(w)
    case SystemTheme(dark) => SystemThemeChanged(w, dark)
    case Import(parsed) => ImportFile(w, parsed)
    case Spin(r, firstElapsed, time) => SpinWheel(w, r, firstElapsed, time)
    case Tick(elapsed, time) => Frame(w, elapsed, time)
  }

  /** Every event keeps the rotation invariant. */
  lemma StepKeepsRotationInv(w: Wheel, e: Event)
    requires RotationInv(w) && Allowed(w, e)
    ensures RotationInv(Step(w, e))
  {
    match e
    case Spin(r, firstElapsed, time) =>
      var d := w.settings.spinDuration as real;
      if CanSpin(w) && d != 0.0 {
        SampleBelowTarget(w.rotation, SpinAmount(r), firstElapsed, d);
      }
    case Tick(elapsed, time) =>
      var d := w.settings.spinDuration as real;
      if d != 0.0 {
        SampleBelowTarget(w.phase.start, w.phase.amount, elapsed, d);
      }
    case _ =>
  }

  /** Only a spin request can start a spin, and only a frame at or past a
      non-negative duration can end one. */
  lemma StepSpinningChanges(w: Wheel, e: Event)
    requires Allowed(w, e)
    ensures !w.IsSpinning() && Step(w, e).IsSpinning() ==> e.Spin? && CanSpin(w)
    ensures w.IsSpinning() && !Step(w, e).IsSpinning() ==>
      e.Tick? && w.settings.spinDuration >= 0 && e.elapsed >= w.settings.spinDuration as real
  {
  }

  /** Editing events keep the list invariant (a loaded document is not
      checked, so imports are excluded). */
  lemma StepKeepsValidItems(w: Wheel, e: Event)
    requires Items.ValidList(w.items) && Allowed(w, e) && !e.Import?
    ensures Items.ValidList(Step(w, e).items)
  {
    match e
    case Add(input) => Items.AddItemKeepsValid(w.items, input);
    case Remove(index) => Items.RemoveItemKeepsValid(w.items, index);
    case Edit(index, answer) => Items.EditItemKeepsValid(w.items, index, answer);
    case Clear(confirmed) => Items.ClearAllKeepsValid(w.items, confirmed);
    case Preset(p) => Items.PresetsAreValid(p);
    case _ =>
  }

  /** A whole spin from rest: the request is accepted, a first frame
      before the duration has passed leaves the wheel spinning (at its
      start if no time has passed), the final frame leaves it at rest
      within one turn, and the new first history entry is the item whose
      sector is under the pointer. */
  lemma SpinLifecycle(w: Wheel, r: real, firstElapsed: real, firstTime: string, elapsed: real, time: string)
    requires RotationInv(w) && CanSpin(w)
    requires 0.0 <= r < 1.0 && 0.0 <= firstElapsed < w.settings.spinDuration as real
    requires w.settings.spinDuration > 0 && elapsed >= w.settings.spinDuration as real
    ensures SpinWheel(w, r, firstElapsed, firstTime).IsSpinning()
    ensures firstElapsed == 0.0 ==> SpinWheel(w, r, firstElapsed, firstTime).rotation == w.rotation
    ensures var w' := Frame(SpinWheel(w, r, firstElapsed, firstTime), elapsed, time);
      && !w'.IsSpinning()
      && 0.0 <= w'.rotation < TwoPi
      && w'.rotation == RestingAngle(w.rotation, SpinAmount(r))
      && w'.items == w.items
      && var i := Locate(w'.rotation, |w.items|);
        && 0 <= i < |w.items|
        && i as real * SectorWidth(|w.items|) <= PointerOffset(w'.rotation) < (i + 1) as real * SectorWidth(|w.items|)
        && w'.history[0] == HistoryEntry(Some(w.items[i]), time)
  {
  }

  /** Whatever the wheel holds now, reading back a document saved from
      `w` restores `w`'s items, history and settings, provided neither
      numeric setting is 0. */
  lemma SavedStateReloads(v: Wheel, w: Wheel)
    requires w.settings.wheelSize != 0 && w.settings.spinDuration != 0
    ensures Persisted(LoadFromStorage(v.(stored := Save(w).stored))) == Persisted(w)
  {
    SaveLoadRoundTrip(Persisted(v), Persisted(w));
  }

  /** A document holding two items and a negative spin duration, as a
      loaded file may carry. */
  const NegativeDurationFile := Document(Some(["A", "B"]), None, Some(SettingsDoc(None, Some(-1000), None, None)))

  /** The wheel a fresh page reaches by importing `NegativeDurationFile`
      and spinning. */
  function NegativeDurationSpin(systemDark: bool, r: real, firstElapsed: real, firstTime: string): Wheel
    requires 0.0 <= r < 1.0 && firstElapsed >= 0.0
  {
    SpinWheel(ImportFile(Init(None, systemDark), Some(NegativeDurationFile)), r, firstElapsed, firstTime)
  }

  /** While the duration stays negative a spin does not end: after
      importing `NegativeDurationFile` into a fresh wheel and spinning,
      every later frame keeps the wheel spinning and draws it behind where
      it started. */
  lemma NegativeDurationSpinStalls(systemDark: bool, r: real, firstElapsed: real, firstTime: string, elapsed: real, time: string)
    requires 0.0 <= r < 1.0 && firstElapsed >= 0.0 && elapsed > 0.0
    ensures var w := NegativeDurationSpin(systemDark, r, firstElapsed, firstTime);
      && w.IsSpinning() && w.settings.spinDuration == -1000
      && Frame(w, elapsed, time).IsSpinning()
      && Frame(w, elapsed, time).rotation < w.phase.start
  {
    var w := NegativeDurationSpin(systemDark, r, firstElapsed, firstTime);
    SampleBehindStart(w.phase.start, w.phase.amount, elapsed, -1000.0);
  }

  /** `animate` re-reads the duration at every frame, so moving the
      duration slider to a positive value ends the stalled spin at the
      first frame once that many seconds have passed. */
  lemma NegativeDurationSpinRecovers(systemDark: bool, r: real, firstElapsed: real, firstTime: string,
                                     seconds: int, elapsed: real, time: string)
    requires 0.0 <= r < 1.0 && firstElapsed >= 0.0
    requires seconds > 0 && elapsed >= (seconds * 1000) as real
    ensures var w := SetSpinDuration(NegativeDurationSpin(systemDark, r, firstElapsed, firstTime), seconds);
      && !Frame(w, elapsed, time).IsSpinning()
      && 0.0 <= Frame(w, elapsed, time).rotation < TwoPi
  {
  }

  /** The duration a frame should use: a non-positive value falls back to
      the 4000 ms default, as a 0 already does when loaded. */
  function EffectiveDuration(s: Settings): (d: real)
    ensures d > 0.0
    ensures s.spinDuration > 0 ==> d == s.spinDuration as real
  {
    if s.spinDuration > 0 then s.spinDuration as real else 4000.0
  }

  /** `animate` with the duration checked: the spin ends once the effective
      duration has elapsed, and until then the wheel is drawn at the sample
      for that duration. */
  function FrameChecked(w: Wheel, elapsed: real, time: string): (r: Wheel)
    requires w.IsSpinning() && elapsed >= 0.0
    ensures elapsed >= EffectiveDuration(w.settings) ==> r == Finish(w, time)
    ensures elapsed < EffectiveDuration(w.settings) ==>
      r == w.(rotation := Sample(w.phase.start, w.phase.amount, elapsed, EffectiveDuration(w.settings)))
  {
    var duration := EffectiveDuration(w.settings);
    if Progress(elapsed, duration) < 1.0 then
      w.(rotation := Sample(w.phase.start, w.phase.amount, elapsed, duration))
    else
      Finish(w, time)
  }

  /** With the duration guarded every spin ends, whatever duration was
      loaded: before the effective duration has elapsed the wheel is drawn
      between its start and its target, and afterwards it is at rest
      within one turn. */
  lemma CheckedSpinEnds(w: Wheel, elapsed: real, time: string)
    requires RotationInv(w) && w.IsSpinning() && elapsed >= 0.0
    ensures var r := FrameChecked(w, elapsed, time);
      && (elapsed < EffectiveDuration(w.settings) ==>
            r.IsSpinning() && w.phase.start <= r.rotation <= w.phase.start + w.phase.amount)
      && (elapsed >= EffectiveDuration(w.settings) ==> !r.IsSpinning() && 0.0 <= r.rotation < TwoPi)
  {
    SampleBounds(w.phase.start, w.phase.amount, elapsed, EffectiveDuration(w.settings));
  }
}
